=== FILE: README.md ===
# Chat graph, chat front ends and authenticator — a Dafny model

This project models the logic of the LLM chat tutorial code in four parts.

1. **The conversation graph** (`16_llmapp/chatbot_chapter6_2/graph.py`). A thread's
   state is an append-only list of messages. The compiled graph is entered at
   `chatbot`. After `chatbot` it either goes to `tools` or ends, as
   `tools_condition` decides from the last message. `tools` always goes back to
   `chatbot`. Each thread is checkpointed in an in-memory store keyed by thread
   id. A turn answers with the content of the last message. `get_messages_list`
   turns a thread into the display transcript: human messages become
   `user-message`, AI messages with non-empty content become `bot-message`, and
   everything else is dropped.
2. **The persona chat web front end** (`16_llmapp/original/app.py`). It gives
   each session a thread id and a default persona, but only when they are
   missing. POST runs a turn on the session's thread with the persona's system
   prompt. GET, the persona form (`update_character`) and `clear` each empty
   the whole memory store.
3. **The echo chat page** (`16_llmapp/chatbot/app.py`). Its reply is a fixed
   prefix followed by the user's text. POST appends the text and the reply to
   one global history. GET leaves that history alone.
4. **The authenticator** (`06_test/test_authenticator.py`). It is a registry of
   user names and passwords. Its contracts generalise what the four tests
   assert, on a fresh registry, to any registry.

Modules: `Wrappers` (Option/Result), `Sequences` (prefix facts), `Messages`
(message datatype and the append reducer), `Checkpoint` (the memory store),
`Projection` (the transcript classification), `Transcript`
(`get_messages_list` and its read of the store), `Graph` (nodes, edges, the fuel-bounded
executor, turns, the lazily built graph), `PyString` (Python's `str.strip`),
`WebApp` (`original/app.py`), `EchoBot` (`chatbot/app.py`) and `Authenticator`.

The chat model, the search tool and `tools_condition` are not part of this
model. They appear as the function-valued fields of `Graph.Oracles`. The
executor `Graph.RunFrom` takes an explicit `fuel` (the most node executions a
run may take), so it always terminates. A run that uses up its fuel without
reaching END fails with `RecursionLimit`. The fuel is a device of the model.

## Model

| member | source | states |
|---|---|---|
| Messages.AddMessages | 16_llmapp/chatbot_chapter6_2/graph.py:30-31 | merging keeps every existing message as it was and puts the incoming ones after them, in order |
| Messages.AddMessagesInBatches | 16_llmapp/chatbot_chapter6_2/graph.py:30-31 | merging in two batches gives the same state as merging both at once |
| Checkpoint.Get | 16_llmapp/chatbot_chapter6_2/graph.py:109 | `memory.get` returns a checkpoint exactly for threads that have one, and returns nothing otherwise |
| Checkpoint.Load | 16_llmapp/chatbot_chapter6_2/graph.py:76-78 | a turn starts from the thread's checkpoint, or from no messages for a new thread |
| Checkpoint.Save | 16_llmapp/chatbot_chapter6_2/graph.py:67 | checkpointing replaces the snapshot of one thread and no other thread |
| Checkpoint.ClearAll | 16_llmapp/original/app.py:38 | `memory.storage.clear()` leaves no thread with a checkpoint |
| Checkpoint.SaveLoad | 16_llmapp/chatbot_chapter6_2/graph.py:67 | round trip: the next load of a thread reads exactly what was saved |
| Checkpoint.SaveIsolation | 16_llmapp/chatbot_chapter6_2/graph.py:76-78 | saving thread A does not change what thread B loads |
| Checkpoint.ClearAllEmptiesEveryThread | 16_llmapp/chatbot/test_graph.py:69-76 | after a clear, every thread loads as empty |
| Projection.Classify | 16_llmapp/chatbot_chapter6_2/graph.py:112-121 | a message yields an entry iff it is human, or AI with non-empty content; the text is the message content; the class is `user-message` iff the message is human, and `bot-message` iff it is an AI message |
| Projection.Project | 16_llmapp/chatbot_chapter6_2/graph.py:107-126 | the transcript is never longer than the history |
| Projection.ProjectAppend | 16_llmapp/chatbot_chapter6_2/graph.py:112-121 | the transcript of a concatenation is the concatenation of the transcripts, so order is kept |
| Projection.ProjectUserMember | 16_llmapp/chatbot_chapter6_2/graph.py:113-115 | a `user-message` with text t is shown iff a human message with content t is stored |
| Projection.ProjectBotMember | 16_llmapp/chatbot_chapter6_2/graph.py:116-118 | a `bot-message` with text t is shown iff t is non-empty and some stored AI message has content t; tool-call-only AI messages never appear |
| Projection.ToolResultsNotProjected | 16_llmapp/chatbot_chapter6_2/graph.py:119-121 | appending tool results leaves the transcript unchanged |
| Projection.PositionsAreSources | 16_llmapp/chatbot_chapter6_2/graph.py:112-121 | each transcript entry comes from one message of the history: positions increase, so input order is kept; each entry is exactly what its message classifies to; and every message not listed was dropped |
| Transcript.MessagesList | 16_llmapp/chatbot_chapter6_2/graph.py:107-126 | the loop computes the same transcript as the recursive definition, together with the position each entry came from: positions increase, each entry is what its message classifies to, and every unlisted message was dropped |
| Transcript.MessagesListAsWritten | 16_llmapp/chatbot_chapter6_2/graph.py:109 | as written, the read fails exactly when the thread has no checkpoint, and otherwise gives the thread's transcript |
| Transcript.AsWrittenFailsAfterClear | 16_llmapp/chatbot/test_graph.py:69-76 | right after a store-wide clear, the as-written read fails instead of returning a list |
| Transcript.MessagesListOrEmpty | 16_llmapp/chatbot_chapter6_2/graph.py:125-126 | corrected read: always a list, empty for a thread with no checkpoint, and otherwise the same as the as-written read |
| Graph.ChatbotNode | 16_llmapp/chatbot_chapter6_2/graph.py:54-55 | the `chatbot` node produces one AI message carrying the content and the tool calls of the model's reply to the messages so far |
| Graph.ToolNode | 16_llmapp/chatbot_chapter6_2/graph.py:43-47 | the tool node emits one tool result per requested call, in call order; result k holds the tool's output for call k and that call's id |
| Graph.Step | 16_llmapp/chatbot_chapter6_2/graph.py:54-55 | a `chatbot` step adds exactly one message, the AI reply, after the unchanged earlier ones; a `tools` step adds only tool results, one per call of the last AI message, in call order, each holding the tool's output for its call and the call's id |
| Graph.Successor | 16_llmapp/chatbot_chapter6_2/graph.py:60-64 | after `tools` the graph always goes to `chatbot`; after `chatbot` it goes to `tools` iff there is a last message and the condition accepts it, and otherwise ends |
| Graph.SuccessorAlternates | 16_llmapp/chatbot_chapter6_2/graph.py:60-64 | whenever the graph moves on, it moves to `chatbot` exactly when it comes from `tools` |
| Graph.ChatbotRoute | 16_llmapp/chatbot_chapter6_2/graph.py:60-63 | after `chatbot`, the run goes to `tools` or ends, decided only by the condition on the message just produced |
| Graph.RunFrom | 16_llmapp/chatbot_chapter6_2/graph.py:54-65 | a run starts at its entry node and follows the edges, so `chatbot` and `tools` alternate; the earlier state is a prefix of the final state; a run stops only at END or when the fuel is used up; reaching END means the last node was `chatbot`, its AI message is last, and the condition rejects it; a run that stops short of END added only AI messages the condition accepts, so a run that adds one the condition rejects reaches END; the run adds exactly one AI message per `chatbot` step |
| Graph.HandleTurn | 16_llmapp/chatbot_chapter6_2/graph.py:76-81 | a turn runs the compiled graph from its entry point, leaves other threads untouched and appends the user message to its thread; it runs at most `fuel` nodes; it answers exactly when the run reaches END: a failure has run all `fuel` nodes and every AI message it added was accepted by the condition, and a success answers with the content of the thread's last message, an AI message that the condition rejects |
| Graph.TurnAnswersDirectly | 16_llmapp/chatbot_chapter6_2/graph.py:54-81 | when the first model reply needs no tool, the turn runs one node, the thread gains the user message and that reply, and the answer is the reply's content |
| Graph.StreamGraphUpdates | 16_llmapp/chatbot_chapter6_2/graph.py:70-81 | the given graph runs a turn on thread "1": only that thread changes and it gains the user message; a failure has run all `fuel` nodes and every AI message it added asked for the tools; on success the reply is the content of its last message, an AI message that the condition rejects |
| Graph.BuildGraph | 16_llmapp/chatbot_chapter6_2/graph.py:34-67 | the compiled graph is over the requested model name and is entered at `chatbot`, which is what a turn needs to run it |
| Graph.GetBotResponse | 16_llmapp/chatbot_chapter6_2/graph.py:86-99 | the graph is built only when none exists, and an existing graph is kept; the answer and the new store are those of the `stream_graph_updates` turn run by that graph: the user message is appended to thread "1", other threads are untouched, and a successful answer is the content of the thread's last message |
| Graph.Serve | 16_llmapp/chatbot_chapter6_2/graph.py:93-96 | over any series of calls, the global graph stays one that `build_graph` produced, entered at `chatbot` |
| Graph.GraphBuiltOnce | 16_llmapp/chatbot_chapter6_2/graph.py:93-96 | over any series of calls, an existing graph is never replaced, and after the first call the graph is the one built for `gpt-4o-mini` |
| Graph.TwoTurnsAccumulate | 16_llmapp/chatbot/test_graph.py:49-54 | after two calls, thread "1" holds both user messages in order, and both appear as `user-message` entries |
| Graph.ToolRoundTrip | 16_llmapp/chatbot_chapter6_2/graph.py:60-64 | in a turn with one search, the thread gains the user message, the tool-call message, the tool result and the answer, in that order; the transcript gains only the user message and the answer |
| PyString.Strip | 16_llmapp/original/app.py:63-65 | `strip()` returns a contiguous piece of the input, removes only whitespace around it, and the result neither starts nor ends with whitespace |
| PyString.StripIdempotent | 16_llmapp/original/app.py:63-65 | stripping twice gives the same result as stripping once |
| PyString.StripTrimmed | 16_llmapp/original/app.py:63-65 | a non-empty string with no whitespace at either end strips to itself |
| PyString.StripEmptyIff | 16_llmapp/original/app.py:68-73 | a string strips to empty iff it is all whitespace |
| WebApp.InitSession | 16_llmapp/original/app.py:24-33 | a thread id is created only when the session has none, and an existing one is kept; the default persona is installed only when none is set |
| WebApp.InitSessionStable | 16_llmapp/original/app.py:24-25 | once a session has a thread id, later requests never replace it, whatever fresh id they draw |
| WebApp.PostTurn | 16_llmapp/original/app.py:50 | the POST's turn runs on the session's thread: only that thread changes and it gains the user message; a failure has spent the fuel with every added AI message asking for the tools; a successful answer is the content of the thread's last message, an AI message that the condition rejects |
| WebApp.PostTurnUsesPersona | 16_llmapp/original/app.py:50 | the chat model is asked with the persona's system prompt: when its reply to that prompt needs no tool, the POST answers with that reply |
| WebApp.Index | 16_llmapp/original/app.py:21-57 | GET empties every thread and renders an empty transcript. POST runs the turn on the session's thread with the persona's system prompt and leaves other threads untouched; the page is rendered, showing that thread's transcript, exactly when the turn succeeds, and otherwise the answer is the turn's error |
| WebApp.Respond | 16_llmapp/original/app.py:51-57 | after the turn, the memory is what the turn left; the page is rendered exactly when the turn answered, and it shows the thread's transcript with the persona; otherwise the answer is the turn's error |
| WebApp.PostReadsExistingThread | 16_llmapp/original/app.py:50-52 | the transcript read after a POST turn always finds the thread's checkpoint |
| WebApp.Field | 16_llmapp/original/app.py:63-73 | a persona field stores the submitted text stripped, or the fixed default if nothing is left; the stored value is never empty and has no surrounding whitespace |
| WebApp.FieldBlankIsDefault | 16_llmapp/original/app.py:68-73 | a missing or all-whitespace field gets the default |
| WebApp.FieldKeepsStrippedText | 16_llmapp/original/app.py:63-65 | text that is non-empty and has no surrounding whitespace is stored unchanged |
| WebApp.DefaultsTrimmed | 16_llmapp/original/app.py:29-33 | the three default persona values are non-empty and have no surrounding whitespace |
| WebApp.UpdateCharacter | 16_llmapp/original/app.py:61-89 | each field is stored stripped or defaulted, no stored field is empty, the thread id is kept, every thread is emptied, and the page shows an empty transcript with the new persona |
| WebApp.Clear | 16_llmapp/original/app.py:94-108 | the thread id is removed (a session without one is fine), every thread is emptied, the persona is kept, and the page shows the persona or the default |
| WebApp.ClearStartsNewThread | 16_llmapp/original/app.py:94-99 | after a clear, the next request to `/` gets the fresh thread id and keeps the persona |
| WebApp.GetDiscardsOtherSessions | 16_llmapp/original/app.py:36-38 | a GET from one session discards the non-empty history of another session's thread |
| EchoBot.BotReply | 16_llmapp/chatbot/app.py:12-13 | the reply is the fixed prefix `あなたが言ったのは: ` followed by the user text unchanged |
| EchoBot.UserTextOf | 16_llmapp/chatbot/app.py:12-13 | recovering the user text succeeds exactly on texts that start with the prefix |
| EchoBot.ReplyRoundTrip | 16_llmapp/chatbot/app.py:12-13 | recovering the user text from a reply gives back exactly the text it answered |
| EchoBot.ReplyInjective | 16_llmapp/chatbot/app.py:12-13 | different user texts get different replies |
| EchoBot.Index | 16_llmapp/chatbot/app.py:16-41 | GET renders an empty list and leaves the history unchanged; POST keeps the history, appends the user text and then the reply, and renders the whole history |
| EchoBot.ReplayAppendOnly | 16_llmapp/chatbot/app.py:32-37 | over any series of requests, the history only grows: the old entries are kept, then each POST in order adds its text and its reply, and GETs add nothing |
| Authenticator.Register | 06_test/test_authenticator.py:9-24 | registration fails with the duplicate-user error iff the name is taken; otherwise the name is stored with exactly that password and every other entry is kept |
| Authenticator.Login | 06_test/test_authenticator.py:30-44 | for a registered name, login succeeds with `ログイン成功` iff the password is the stored one; otherwise it fails with the bad-credentials error |
| Authenticator.RegisterFresh | 06_test/test_authenticator.py:9-13 | registering on a fresh authenticator stores the name with its password |
| Authenticator.RegisterDuplicate | 06_test/test_authenticator.py:20-24 | registering a name twice fails with `エラー: ユーザーは既に存在します。` |
| Authenticator.LoginAfterRegister | 06_test/test_authenticator.py:30-44 | after registration, login with the same password succeeds, and with any other password it fails with `エラー: ユーザー名またはパスワードが正しくありません。` |

## Left out

- The chat model (`ChatOpenAI`, `bind_tools`) and the Tavily search tool are network calls. They are the `llm` and `tool` fields of `Graph.Oracles`.
- `tools_condition` is library code. It is the `toolsCondition` field of `Graph.Oracles`, a predicate on the last message.
- `add_messages` replaces a message that has the same id as an incoming one. This is not modelled, because the nodes here always produce new messages. `Messages.AddMessages` is a plain append.
- `Graph.ToolNode`: the library `ToolNode` is not part of this model. It is modelled as one result per requested call, in call order. Tool errors are not modelled separately; they are just another result text.
- `Graph.Oracles`: the chat model never fails in the model. In the source an exception from `llm_with_tools.invoke` (graph.py line 55) leaves `stream_graph_updates`, `get_bot_response` and `index` (an HTTP 500), after the user's message has been checkpointed. `Graph.TurnError` has only the recursion-limit case.
- `Graph.RunFrom`: the library's recursion limit and its `GraphRecursionError` are modelled by the `fuel` parameter and the `RecursionLimit` error. The library's default limit value is not modelled.
- The store keeps one snapshot per thread, saved at the end of the turn. The library checkpoints after every step and keeps older checkpoints. The final snapshot is the same either way, including for a run stopped by the limit.
- `16_llmapp/original/graph.py` is not part of this model. `original/app.py` calls its `get_bot_response(user_message, memory, thread_id, system_prompt)` and `get_messages_list(memory, thread_id)`. These are modelled as the thread-parameterised versions of the graph.py functions, with the system prompt passed to the chat model.
- `Graph.BuildGraph`: the model name is recorded in the compiled graph but does not choose the chat model. The chat model is the `llm` field of `Graph.Oracles` whatever the name.
- `Graph.GetBotResponse`, `Graph.Serve`: they require `Graph.GraphReady`, that a graph already present is entered at `chatbot`. In the source the global `graph` starts as `None` (graph.py line 26) and is only ever assigned by `build_graph` (lines 95-96).
- `WebApp.PostTurn`: the graph of `original/graph.py` is taken to be the one `build_graph` gives for `gpt-4o-mini`.
- `Graph.GetBotResponse`: the graph keeps the store it was built with, and later `memory` arguments are ignored. The model has a single store, so this cannot be seen.
- Flask routing, templates, cookies and form parsing are not modelled. Session and form values are plain inputs. A POST without `user_message` (HTTP 400) is not modelled.
- `uuid.uuid4()` is the `freshId` parameter of `WebApp.Index`.
- `load_dotenv`, the environment variables and the debug `print` calls are left out. They have no behaviour to verify.
- `static/main.js` (browser UI), `chatbot_chapter6_5/app.py` (glue over the same functions) and `test_calc_ijou.py` (floating-point division) are left out.
- `Authenticator.Login`: only defined for registered names, because the tests never log in an unknown user.
- `Authenticator.Register`: a failed registration returns only the error. The model does not say what the object holds afterwards, because the tests do not check it.
- `WebApp.Index`: a turn that fails renders a server error (`ServerError`). The store keeps the state the run reached.
- Requests are modelled one at a time, each as one atomic step. `app.run(debug=True)` starts Flask's development server, which serves requests on several threads. Another session's GET, `update_character` or `clear` can then empty the store between `get_bot_response` (app.py line 50) and `get_messages_list` (line 52). Such interleavings are not modelled.
- `Authenticator.Register`: the tests register one name on a fresh authenticator. That every untaken name can be registered on any registry, and that the other entries are kept, is assumed from the `users` dictionary the tests read. No test asserts it.

## Findings

| source | as written | input that shows it | evidently intended | confidence | as-written member | corrected member |
|---|---|---|---|---|---|---|
| 16_llmapp/chatbot_chapter6_2/graph.py:109 | the result of `memory.get(...)` is indexed with `['channel_values']`, but `memory.get` returns `None` for a thread with no checkpoint, so the call raises | thread "1" right after `memory.storage.clear()` (the state `test_graph.py` lines 69-76 produce) | an empty list, as the comment on line 125 promises ("return a list even when there are no messages") | medium, not executed | Transcript.MessagesListAsWritten, Transcript.AsWrittenFailsAfterClear | Transcript.MessagesListOrEmpty |

When requests run one at a time, the web front ends never hit this case,
because they read the transcript only after a turn has written the thread
(`WebApp.PostReadsExistingThread`). Flask's development server runs requests
concurrently, though. A clear from another session between the turn and the
read (`original/app.py` lines 50-52) leaves the thread without a checkpoint,
and then the as-written read fails (`Transcript.AsWrittenFailsAfterClear`).
The rest of the model uses the corrected read.

Every clear in `original/app.py` empties the store for all sessions, not only
for the caller's thread. The model keeps this behaviour, and
`WebApp.GetDiscardsOtherSessions` states what it does to other sessions.

=== FILE: authenticator.dfy ===
/**
 * The user registry exercised by the authenticator tests: a map from user
 * name to password, a `register` that refuses an existing name, and a
 * `login` that accepts the stored password and refuses any other.
 */
module Authenticator {
  import opened Wrappers

  const DuplicateUserText: string := "エラー: ユーザーは既に存在します。"
  const BadCredentialsText: string := "エラー: ユーザー名またはパスワードが正しくありません。"
  const LoginSucceededText: string := "ログイン成功"

  /** The `ValueError`s the two operations raise, with their messages. */
  datatype AuthError = DuplicateUser | BadCredentials {
    function Text(): string {
      match this
      case DuplicateUser => DuplicateUserText
      case BadCredentials => BadCredentialsText
    }
  }

  /** `auth.users`: user name to password. */
  type Users = map<string, string>

  /** A freshly constructed authenticator has no users. */
  const NoUsers: Users := map[]

  /**
   * `register`: fails with the duplicate-user error exactly when the name is
   * taken; otherwise the name is added with exactly the given password and
   * every other entry is kept.
   */
  function Register(users: Users, name: string, password: string): (r: Result<Users, AuthError>)
    ensures r.Failure? <==> name in users
    ensures r.Failure? ==> r.error == DuplicateUser
    ensures r.Success? ==> && name in r.value && r.value[name] == password
                           && r.value.Keys == users.Keys + {name}
                           && forall other :: other in users ==> r.value[other] == users[other]
  {
    if name in users then Failure(DuplicateUser) else Success(users[name := password])
  }

  /**
   * `login` for a registered name: succeeds with the success text exactly
   * when the password is the stored one, else fails with the bad-credentials
   * error.
   */
  function Login(users: Users, name: string, password: string): (r: Result<string, AuthError>)
    requires name in users
    ensures r.Success? <==> users[name] == password
    ensures r.Success? ==> r.value == LoginSucceededText
    ensures r.Failure? ==> r.error == BadCredentials
  {
    if users[name] == password then Success(LoginSucceededText) else Failure(BadCredentials)
  }

  /** Registering on a fresh authenticator stores the name with its password. */
  lemma RegisterFresh(name: string, password: string)
    ensures Register(NoUsers, name, password).Success?
    ensures var users := Register(NoUsers, name, password).value;
            name in users && users[name] == password
  {
  }

  /** Registering a name a second time fails with the duplicate-user message, whatever the password. */
  lemma RegisterDuplicate(users: Users, name: string, first: string, second: string)
    requires Register(users, name, first).Success?
    ensures var r := Register(Register(users, name, first).value, name, second);
            r.Failure? && r.error.Text() == DuplicateUserText
  {
  }

  /** After registering, logging in with the same password succeeds, and with another fails. */
  lemma LoginAfterRegister(users: Users, name: string, password: string, attempt: string)
    requires Register(users, name, password).Success?
    ensures var registered := Register(users, name, password).value;
            && (attempt == password ==> Login(registered, name, attempt) == Success(LoginSucceededText))
            && (attempt != password ==> Login(registered, name, attempt).Failure?
                                        && Login(registered, name, attempt).error.Text() == BadCredentialsText)
  {
  }
}

=== FILE: checkpoint.dfy ===
/**
 * The in-memory checkpoint store (`MemorySaver`): for each thread id, the
 * latest snapshot of that thread's messages. Only the latest snapshot is kept.
 */
module Checkpoint {
  import opened Wrappers
  import opened Messages

  type Store = map<string, History>

  /** `memory.get(config)`: the thread's checkpoint, or `None` when it has none. */
  function Get(store: Store, tid: string): (r: Option<History>)
    ensures r.Some? <==> tid in store
    ensures r.Some? ==> r.value == store[tid]
  {
    if tid in store then Some(store[tid]) else None
  }

  /** The state a run on `tid` starts from: the checkpointed messages, or none for a new thread. */
  function Load(store: Store, tid: string): (r: History)
    ensures tid !in store ==> r == []
    ensures Get(store, tid).Some? ==> r == Get(store, tid).value
  {
    Get(store, tid).GetOr([])
  }

  /** Replace the snapshot of `tid`; the thread is created on its first save. */
  function Save(store: Store, tid: string, h: History): (r: Store)
    ensures Get(r, tid) == Some(h)
    ensures forall t :: t != tid ==> Get(r, t) == Get(store, t)
  {
    store[tid := h]
  }

  /** `memory.storage.clear()`: every thread's checkpoint is discarded, not only the caller's. */
  function ClearAll(store: Store): (r: Store)
    ensures forall t :: Get(r, t) == None
  {
    map[]
  }

  /** Round trip: what a save wrote is what the next load of that thread reads. */
  lemma SaveLoad(store: Store, tid: string, h: History)
    ensures Load(Save(store, tid, h), tid) == h
  {
    assert Get(Save(store, tid, h), tid) == Some(h);
  }

  /** Saving one thread leaves every other thread's state as it was. */
  lemma SaveIsolation(store: Store, tid: string, other: string, h: History)
    requires other != tid
    ensures Load(Save(store, tid, h), other) == Load(store, other)
  {
    assert Get(Save(store, tid, h), other) == Get(store, other);
  }

  /** After a store-wide clear, every thread loads as empty. */
  lemma ClearAllEmptiesEveryThread(store: Store, tid: string)
    ensures Load(ClearAll(store), tid) == []
  {
    assert Get(ClearAll(store), tid) == None;
  }
}

=== FILE: echobot.dfy ===
/**
 * The first, model-free chat page: the bot echoes the user's text behind a
 * fixed prefix, and every exchange is appended to one global history list
 * that lives as long as the process.
 */
module EchoBot {
  import opened Wrappers
  import opened Sequences

  const ReplyPrefix: string := "あなたが言ったのは: "

  /** `get_bot_response`: the fixed prefix followed by the user's text, unchanged. */
  function BotReply(userMessage: string): (r: string)
    ensures |r| == |ReplyPrefix| + |userMessage|
    ensures r[..|ReplyPrefix|] == ReplyPrefix
    ensures r[|ReplyPrefix|..] == userMessage
  {
    ReplyPrefix + userMessage
  }

  /** The inverse of `BotReply`: the user text behind the prefix, if the text is a reply at all. */
  function UserTextOf(reply: string): (u: Option<string>)
    ensures u.Some? <==> |reply| >= |ReplyPrefix| && reply[..|ReplyPrefix|] == ReplyPrefix
  {
    if |reply| >= |ReplyPrefix| && reply[..|ReplyPrefix|] == ReplyPrefix
    then Some(reply[|ReplyPrefix|..])
    else None
  }

  /** The reply gives back exactly the text it answered. */
  lemma ReplyRoundTrip(userMessage: string)
    ensures UserTextOf(BotReply(userMessage)) == Some(userMessage)
  {
  }

  /** Different texts get different replies. */
  lemma ReplyInjective(u1: string, u2: string)
    requires BotReply(u1) == BotReply(u2)
    ensures u1 == u2
  {
    ReplyRoundTrip(u1);
    ReplyRoundTrip(u2);
  }

  /** A request to `/`: GET, or POST with the `user_message` form field. */
  datatype Request = HttpGet | HttpPost(userMessage: string)

  /** The global history after a request, and the list the page is rendered with. */
  datatype Exchange = Exchange(history: seq<string>, rendered: seq<string>)

  /**
   * `index`. GET renders an empty list and leaves the history alone. POST
   * appends the user's text and then the reply, and renders the whole history.
   */
  function Index(history: seq<string>, req: Request): (x: Exchange)
    ensures req.HttpGet? ==> x.history == history && x.rendered == []
    ensures req.HttpPost? ==> && |x.history| == |history| + 2
                              && IsPrefix(history, x.history)
                              && x.history[|history|] == req.userMessage
                              && x.history[|history| + 1] == BotReply(req.userMessage)
                              && x.rendered == x.history
  {
    match req
    case HttpGet => Exchange(history, [])
    case HttpPost(u) =>
      var h := history + [u] + [BotReply(u)];
      Exchange(h, h)
  }

  /** The history after a series of requests. */
  function Replay(history: seq<string>, reqs: seq<Request>): seq<string>
    decreases |reqs|
  {
    if |reqs| == 0 then history
    else Index(Replay(history, reqs[..|reqs| - 1]), reqs[|reqs| - 1]).history
  }

  /** The texts posted by a series of requests, in order. */
  function Posts(reqs: seq<Request>): seq<string>
    decreases |reqs|
  {
    if |reqs| == 0 then []
    else Posts(reqs[..|reqs| - 1]) + (if reqs[|reqs| - 1].HttpPost? then [reqs[|reqs| - 1].userMessage] else [])
  }

  /**
   * The history is append-only: whatever it held is kept, and after it come,
   * for each POST in order, the posted text followed by its reply. GETs add
   * nothing.
   */
  lemma {:induction false} ReplayAppendOnly(history: seq<string>, reqs: seq<Request>)
    ensures var h := Replay(history, reqs);
            var p := Posts(reqs);
            && IsPrefix(history, h)
            && |h| == |history| + 2 * |p|
            && forall k :: 0 <= k < |p| ==> h[|history| + 2 * k] == p[k] && h[|history| + 2 * k + 1] == BotReply(p[k])
    decreases |reqs|
  {
    if |reqs| > 0 {
      var init := reqs[..|reqs| - 1];
      ReplayAppendOnly(history, init);
      var h0 := Replay(history, init);
      var p0 := Posts(init);
      var h := Replay(history, reqs);
      var p := Posts(reqs);
      assert h == Index(h0, reqs[|reqs| - 1]).history;
      PrefixTransitive(history, h0, h);
      forall k | 0 <= k < |p|
        ensures h[|history| + 2 * k] == p[k] && h[|history| + 2 * k + 1] == BotReply(p[k])
      {
        if k < |p0| {
          assert p[k] == p0[k];
          assert h[|history| + 2 * k] == h0[|history| + 2 * k];
          assert h[|history| + 2 * k + 1] == h0[|history| + 2 * k + 1];
        }
      }
    }
  }
}

=== FILE: graph.dfy ===
/**
 * The conversation graph of the chat back end: two nodes, `chatbot` (the
 * tool-bound chat model) and `tools` (the search tool), entered at `chatbot`,
 * with a conditional edge out of `chatbot` and a fixed edge from `tools` back
 * to `chatbot`; every node's output is appended to the thread's messages and
 * the thread is checkpointed in the memory store.
 */
module Graph {
  import opened Wrappers
  import opened Sequences
  import opened Messages
  import opened Checkpoint
  import opened Projection
  import opened Transcript

  /** The nodes of the compiled graph. END is not a node: it is the absence of a successor. */
  datatype Node = Chatbot | Tools

  /** What the chat model returns for one invocation: text, and the tool calls it requests. */
  datatype Reply = Reply(content: string, toolCalls: seq<ToolCall>)

  /**
   * The collaborators whose code is not part of this model: the tool-bound chat
   * model (given the persona prompt, if any, and the messages so far), the
   * search tool (one result text per call), and `tools_condition`, which
   * decides from the last message whether `tools` runs next.
   */
  datatype Oracles = Oracles(
    llm: (Option<string>, History) -> Reply,
    tool: ToolCall -> string,
    toolsCondition: Message -> bool)

  const ModelName: string := "gpt-4o-mini"

  /** The only thread the single-user back end reads and writes. */
  const DefaultThread: string := "1"

  const EntryPoint: Node := Chatbot

  /** The edges: `chatbot` goes on to `tools` when the condition holds of the last message, else ends; `tools` always returns to `chatbot`. */
  function Successor(o: Oracles, node: Node, h: History): (r: Option<Node>)
    ensures node == Tools ==> r == Some(Chatbot)
    ensures node == Chatbot ==> (r == Some(Tools) <==> |h| > 0 && o.toolsCondition(Last(h)))
    ensures node == Chatbot ==> (r.None? <==> !(|h| > 0 && o.toolsCondition(Last(h))))
  {
    match node
    case Chatbot => if |h| > 0 && o.toolsCondition(Last(h)) then Some(Tools) else None
    case Tools => Some(Chatbot)
  }

  /** The `chatbot` node: one AI message built from the model's reply to the messages so far. */
  function ChatbotNode(o: Oracles, prompt: Option<string>, h: History): (m: Message)
    ensures m.Assistant?
    ensures m.content == o.llm(prompt, h).content && m.toolCalls == o.llm(prompt, h).toolCalls
  {
    var reply := o.llm(prompt, h);
    Assistant(reply.content, reply.toolCalls)
  }

  /** The `tools` node: one tool result per requested call, in call order, each tagged with its call's id. */
  function ToolNode(o: Oracles, calls: seq<ToolCall>): (out: History)
    ensures |out| == |calls|
    ensures forall k :: 0 <= k < |out| ==> out[k] == ToolResult(o.tool(calls[k]), calls[k].id)
  {
    seq(|calls|, k requires 0 <= k < |calls| => ToolResult(o.tool(calls[k]), calls[k].id))
  }

  /**
   * One node execution with its output merged into the state. `tools` only
   * runs right after `chatbot`, so the last message is then an AI message;
   * the step adds only tool results, one per call of that message, in call
   * order, each holding the tool's output for its call and the call's id.
   */
  function Step(o: Oracles, prompt: Option<string>, node: Node, h: History): (r: History)
    requires node == Tools ==> |h| > 0 && Last(h).Assistant?
    ensures IsPrefix(h, r)
    ensures node == Chatbot ==> |r| == |h| + 1 && Last(r) == ChatbotNode(o, prompt, h)
    ensures node == Tools ==> |r| == |h| + |Last(h).toolCalls|
    ensures node == Tools ==> forall k :: |h| <= k < |r| ==> r[k].ToolResult?
    ensures node == Tools ==> forall k :: |h| <= k < |r| ==>
              r[k] == ToolResult(o.tool(Last(h).toolCalls[k - |h|]), Last(h).toolCalls[k - |h|].id)
  {
    match node
    case Chatbot => AddMessages(h, [ChatbotNode(o, prompt, h)])
    case Tools => AddMessages(h, ToolNode(o, Last(h).toolCalls))
  }

  /** After `chatbot`, where the run goes is decided by the condition on the message it just produced, and nothing else. */
  lemma ChatbotRoute(o: Oracles, prompt: Option<string>, h: History)
    ensures Successor(o, Chatbot, Step(o, prompt, Chatbot, h))
            == if o.toolsCondition(ChatbotNode(o, prompt, h)) then Some(Tools) else None
  {
  }

  /** The only edges: `tools` always returns to `chatbot`, and `chatbot` can only go on to `tools`. */
  lemma SuccessorAlternates(o: Oracles, node: Node, h: History)
    requires Successor(o, node, h).Some?
    ensures node == Tools <==> Successor(o, node, h).value == Chatbot
  {
  }

  /** The outcome of a run: the final state, the nodes executed in order, and whether it reached END. */
  datatype Run = Run(state: History, visited: seq<Node>, finished: bool)

  /** The node order the edges allow: `chatbot` and `tools` alternate. */
  ghost predicate FollowsEdges(v: seq<Node>)
  {
    forall i :: 0 <= i < |v| - 1 ==> (v[i] == Tools <==> v[i + 1] == Chatbot)
  }

  /** Putting a node in front of a run that starts at an allowed successor keeps the order allowed. */
  lemma FollowsEdgesCons(node: Node, next: Node, v: seq<Node>)
    requires FollowsEdges(v)
    requires |v| > 0 ==> v[0] == next
    requires node == Tools <==> next == Chatbot
    ensures FollowsEdges([node] + v)
  {
    var w := [node] + v;
    forall i | 0 <= i < |w| - 1
      ensures w[i] == Tools <==> w[i + 1] == Chatbot
    {
      if i > 0 {
        assert w[i] == v[i - 1] && w[i + 1] == v[i];
      }
    }
  }

  /**
   * What a run of the executor from `node` on state `h` with `fuel` promises:
   * the state only grows; at most `fuel` nodes run, and a run that does not
   * reach END has spent all of them; a run reaches END only with an AI
   * message last that the condition rejects, and a run that stops short of
   * END added only AI messages the condition accepts (so a run that adds
   * one the condition rejects reaches END); the nodes executed follow the
   * edges; and each `chatbot` node executed adds exactly one AI message to
   * the state (`tools` nodes add none).
   */
  ghost predicate RunSpec(o: Oracles, node: Node, h: History, fuel: nat, r: Run)
  {
    && IsPrefix(h, r.state)
    && |r.visited| <= fuel
    && (r.finished || |r.visited| == fuel)
    && (r.finished ==> |r.state| > 0 && Last(r.state).Assistant? && !o.toolsCondition(Last(r.state)))
    && (!r.finished ==> AsksTools(o, r.state, |h|))
    && Traced(node, fuel, r)
    && CountAssistant(r.state) == CountAssistant(h) + CountNode(r.visited, Chatbot)
  }

  /** The executor, from `node` on state `h`, running at most `fuel` nodes. */
  function RunFrom(o: Oracles, prompt: Option<string>, node: Node, h: History, fuel: nat): (r: Run)
    requires node == Tools ==> |h| > 0 && Last(h).Assistant?
    ensures RunSpec(o, node, h, fuel, r)
    decreases fuel
  {
    if fuel == 0 then Run(h, [], false)
    else
      var h' := Step(o, prompt, node, h);
      var succ := Successor(o, node, h');
      if succ.None? then
        RunSpecEnd(o, prompt, node, h, fuel);
        Run(h', [node], true)
      else
        var rest := RunFrom(o, prompt, succ.value, h', fuel - 1);
        RunSpecCons(o, prompt, node, h, fuel, rest);
        Run(rest.state, [node] + rest.visited, rest.finished)
  }

  /** A run that reaches END right after its first step keeps the promise. */
  lemma RunSpecEnd(o: Oracles, prompt: Option<string>, node: Node, h: History, fuel: nat)
    requires node == Tools ==> |h| > 0 && Last(h).Assistant?
    requires fuel > 0 && Successor(o, node, Step(o, prompt, node, h)).None?
    ensures RunSpec(o, node, h, fuel, Run(Step(o, prompt, node, h), [node], true))
  {
    StepAssistantCount(o, prompt, node, h);
    CountNodeCons(node, [], Chatbot);
    assert [node] + [] == [node];
  }

  /** A step followed by a run from its successor that keeps the promise keeps it too. */
  lemma RunSpecCons(o: Oracles, prompt: Option<string>, node: Node, h: History, fuel: nat, rest: Run)
    requires node == Tools ==> |h| > 0 && Last(h).Assistant?
    requires fuel > 0 && Successor(o, node, Step(o, prompt, node, h)).Some?
    requires var h' := Step(o, prompt, node, h);
             RunSpec(o, Successor(o, node, h').value, h', fuel - 1, rest)
    ensures RunSpec(o, node, h, fuel, Run(rest.state, [node] + rest.visited, rest.finished))
  {
    var h' := Step(o, prompt, node, h);
    var next := Successor(o, node, h').value;
    StepAssistantCount(o, prompt, node, h);
    PrefixTransitive(h, h', rest.state);
    SuccessorAlternates(o, node, h');
    TracedCons(node, next, fuel, rest);
    AssistantCountCons(h, h', node, rest);
    if !rest.finished {
      StepAsksTools(o, prompt, node, h);
      AsksToolsJoin(o, h, h', rest.state);
    }
  }

  /** A run that reaches END right after `node`: the step's state, `node` alone, finished. */
  lemma RunFromEnd(o: Oracles, prompt: Option<string>, node: Node, h: History, fuel: nat)
    requires node == Tools ==> |h| > 0 && Last(h).Assistant?
    requires fuel > 0 && Successor(o, node, Step(o, prompt, node, h)).None?
    ensures RunFrom(o, prompt, node, h, fuel) == Run(Step(o, prompt, node, h), [node], true)
  {
  }

  /** A run that goes on after `node`: `node` followed by the run from its successor on the step's state. */
  lemma RunFromNext(o: Oracles, prompt: Option<string>, node: Node, h: History, fuel: nat)
    requires node == Tools ==> |h| > 0 && Last(h).Assistant?
    requires fuel > 0 && Successor(o, node, Step(o, prompt, node, h)).Some?
    ensures var h' := Step(o, prompt, node, h);
            var rest := RunFrom(o, prompt, Successor(o, node, h').value, h', fuel - 1);
            RunFrom(o, prompt, node, h, fuel) == Run(rest.state, [node] + rest.visited, rest.finished)
  {
  }

  /**
   * The node order of a run with `fuel`, entered at `node`: it starts at
   * `node` unless no fuel was given, follows the edges, and ends with
   * `chatbot` if it reached END.
   */
  ghost predicate Traced(node: Node, fuel: nat, r: Run)
  {
    && (fuel > 0 ==> |r.visited| > 0 && r.visited[0] == node)
    && FollowsEdges(r.visited)
    && (r.finished ==> |r.visited| > 0 && r.visited[|r.visited| - 1] == Chatbot)
  }

  /** Running `node` in front of a traced run from an allowed successor gives a traced run. */
  lemma TracedCons(node: Node, next: Node, fuel: nat, rest: Run)
    requires fuel > 0 && |rest.visited| <= fuel - 1
    requires Traced(next, fuel - 1, rest)
    requires node == Tools <==> next == Chatbot
    ensures Traced(node, fuel, Run(rest.state, [node] + rest.visited, rest.finished))
  {
    var v := [node] + rest.visited;
    FollowsEdgesCons(node, next, rest.visited);
    assert v[0] == node;
    assert |rest.visited| > 0 ==> v[|v| - 1] == rest.visited[|rest.visited| - 1];
  }

  function CountNode(v: seq<Node>, n: Node): nat
  {
    if |v| == 0 then 0 else (if v[0] == n then 1 else 0) + CountNode(v[1..], n)
  }

  /** A `chatbot` step adds one AI message; a `tools` step adds none. */
  lemma StepAssistantCount(o: Oracles, prompt: Option<string>, node: Node, h: History)
    requires node == Tools ==> |h| > 0 && Last(h).Assistant?
    ensures CountAssistant(Step(o, prompt, node, h)) == CountAssistant(h) + (if node == Chatbot then 1 else 0)
  {
    if node == Chatbot {
      var m := ChatbotNode(o, prompt, h);
      assert Step(o, prompt, node, h) == h + [m];
      CountAssistantAppend(h, [m]);
      assert [m][..0] == [];
    } else {
      var out := ToolNode(o, Last(h).toolCalls);
      assert Step(o, prompt, node, h) == h + out;
      CountAssistantAppend(h, out);
      NoAssistant(out);
    }
  }

  lemma CountNodeCons(n: Node, v: seq<Node>, target: Node)
    ensures CountNode([n] + v, target) == (if n == target then 1 else 0) + CountNode(v, target)
  {
    assert ([n] + v)[1..] == v;
  }

  /** The count of AI messages is carried from a run's tail to the run with one more node in front. */
  lemma AssistantCountCons(h: History, h': History, node: Node, rest: Run)
    requires CountAssistant(h') == CountAssistant(h) + (if node == Chatbot then 1 else 0)
    requires CountAssistant(rest.state) == CountAssistant(h') + CountNode(rest.visited, Chatbot)
    ensures CountAssistant(rest.state) == CountAssistant(h) + CountNode([node] + rest.visited, Chatbot)
  {
    CountNodeCons(node, rest.visited, Chatbot);
  }

  lemma {:induction false} NoAssistant(h: History)
    requires forall k :: 0 <= k < |h| ==> h[k].ToolResult?
    ensures CountAssistant(h) == 0
    decreases |h|
  {
    if |h| > 0 {
      NoAssistant(h[..|h| - 1]);
    }
  }

  /** What `build_graph` produces: a graph over the given model, entered at `chatbot`. */
  datatype Compiled = Compiled(modelName: string, entry: Node)

  /** `build_graph`: the compiled graph over `modelName`, entered at `chatbot`, so a turn can run it. */
  function BuildGraph(modelName: string): (g: Compiled)
    ensures g.modelName == modelName
    ensures g.entry == Chatbot
  {
    Compiled(modelName, EntryPoint)
  }

  /** Every AI message of `s` from position `from` on is one the condition accepts, so it asks for the tools. */
  predicate AsksTools(o: Oracles, s: History, from: nat)
  {
    forall k :: from <= k < |s| ==> (s[k].Assistant? ==> o.toolsCondition(s[k]))
  }

  /** A step that the graph moves on from added only messages that ask for the tools. */
  lemma StepAsksTools(o: Oracles, prompt: Option<string>, node: Node, h: History)
    requires node == Tools ==> |h| > 0 && Last(h).Assistant?
    requires Successor(o, node, Step(o, prompt, node, h)).Some?
    ensures AsksTools(o, Step(o, prompt, node, h), |h|)
  {
    var h' := Step(o, prompt, node, h);
    if node == Chatbot {
      assert |h'| == |h| + 1;
      assert h'[|h|] == Last(h');
    }
  }

  /** Asking for the tools from `|h|` to `|h'|` and from `|h'|` on is asking for them from `|h|` on. */
  lemma AsksToolsJoin(o: Oracles, h: History, h': History, s: History)
    requires |h| <= |h'| && IsPrefix(h', s)
    requires AsksTools(o, h', |h|) && AsksTools(o, s, |h'|)
    ensures AsksTools(o, s, |h|)
  {
    forall k | |h| <= k < |s|
      ensures s[k].Assistant? ==> o.toolsCondition(s[k])
    {
      if k < |h'| {
        assert s[k] == h'[k];
      }
    }
  }

  /** The error a turn fails with when the run does not reach END within its fuel. */
  datatype TurnError = RecursionLimit

  /** The outcome of a turn: the new store, the answer or error, and how many nodes the run executed. */
  datatype Turn = Turn(store: Store, reply: Result<string, TurnError>, steps: nat)

  /**
   * One turn of the compiled graph `g` on thread `tid`: load the thread,
   * append the user's message, run from the graph's entry point, checkpoint
   * the resulting state, and answer with the content of the last message.
   * Other threads are untouched. The turn answers exactly when the run
   * reaches END, that is once the condition rejects an AI message: a failed
   * turn has run all `fuel` nodes, and every AI message it added asked for
   * the tools.
   */
  function HandleTurn(o: Oracles, g: Compiled, store: Store, tid: string, prompt: Option<string>, user: string,
                      fuel: nat): (t: Turn)
    requires g.entry == Chatbot
    ensures forall other :: other != tid ==> Get(t.store, other) == Get(store, other)
    ensures tid in t.store
    ensures IsPrefix(Load(store, tid) + [User(user)], Load(t.store, tid))
    ensures t.steps <= fuel
    ensures t.reply.Failure? ==> t.steps == fuel
    ensures t.reply.Success? ==> var h := Load(t.store, tid);
                                  && |h| > 0 && Last(h).Assistant? && t.reply.value == Last(h).content
                                  && !o.toolsCondition(Last(h))
    ensures t.reply.Failure? ==> var h := Load(t.store, tid);
                                  forall k :: |Load(store, tid)| < k < |h| ==> (h[k].Assistant? ==> o.toolsCondition(h[k]))
    ensures fuel == 0 ==> t.reply.Failure?
  {
    var h := AddMessages(Load(store, tid), [User(user)]);
    var run := RunFrom(o, prompt, g.entry, h, fuel);
    var store' := Save(store, tid, run.state);
    SaveLoad(store, tid, run.state);
    Turn(store', if run.finished then Success(Last(run.state).content) else Failure(RecursionLimit), |run.visited|)
  }

  /**
   * A turn whose first model reply needs no tool answers with that reply:
   * one node runs, the thread gains the user's message and the reply, and
   * the answer is the reply's content.
   */
  lemma TurnAnswersDirectly(o: Oracles, g: Compiled, store: Store, tid: string, prompt: Option<string>, user: string,
                            fuel: nat)
    requires g.entry == Chatbot && fuel >= 1
    requires !o.toolsCondition(ChatbotNode(o, prompt, Load(store, tid) + [User(user)]))
    ensures var t := HandleTurn(o, g, store, tid, prompt, user, fuel);
            var m := ChatbotNode(o, prompt, Load(store, tid) + [User(user)]);
            && t.reply == Success(m.content)
            && t.steps == 1
            && Load(t.store, tid) == Load(store, tid) + [User(user), m]
  {
    var h := Load(store, tid) + [User(user)];
    var m := ChatbotNode(o, prompt, h);
    ChatbotEnds(o, prompt, h, fuel);
    assert HandleTurn(o, g, store, tid, prompt, user, fuel) == Turn(Save(store, tid, h + [m]), Success(m.content), 1);
    assert h + [m] == Load(store, tid) + [User(user), m];
    SaveLoad(store, tid, h + [m]);
  }

  /** A `chatbot` node whose message the condition rejects ends the run after that one node. */
  lemma ChatbotEnds(o: Oracles, prompt: Option<string>, h: History, fuel: nat)
    requires fuel >= 1 && !o.toolsCondition(ChatbotNode(o, prompt, h))
    ensures RunFrom(o, prompt, Chatbot, h, fuel) == Run(h + [ChatbotNode(o, prompt, h)], [Chatbot], true)
  {
    assert Step(o, prompt, Chatbot, h) == h + [ChatbotNode(o, prompt, h)];
    RunFromEnd(o, prompt, Chatbot, h, fuel);
  }

  /**
   * `stream_graph_updates`: a turn of the given graph on thread "1" with no
   * persona prompt. Only thread "1" changes, it gains the user's message, and
   * the answer is the content of its last message, an AI message; it fails
   * only once the run has spent its fuel with every AI message it added
   * asking for the tools.
   */
  function StreamGraphUpdates(o: Oracles, g: Compiled, store: Store, user: string, fuel: nat): (t: Turn)
    requires g.entry == Chatbot
    ensures forall other :: other != DefaultThread ==> Get(t.store, other) == Get(store, other)
    ensures IsPrefix(Load(store, DefaultThread) + [User(user)], Load(t.store, DefaultThread))
    ensures t.steps <= fuel
    ensures t.reply.Failure? ==> t.steps == fuel
    ensures t.reply.Success? ==> var h := Load(t.store, DefaultThread);
                                  && |h| > 0 && Last(h).Assistant? && t.reply.value == Last(h).content
                                  && !o.toolsCondition(Last(h))
    ensures t.reply.Failure? ==> var h := Load(t.store, DefaultThread);
                                  forall k :: |Load(store, DefaultThread)| < k < |h| ==>
                                                (h[k].Assistant? ==> o.toolsCondition(h[k]))
  {
    HandleTurn(o, g, store, DefaultThread, None, user, fuel)
  }

  /** The module-level globals of the back end: the lazily built graph and the memory store. */
  datatype Backend = Backend(graph: Option<Compiled>, memory: Store)

  datatype Response = Response(backend: Backend, reply: Result<string, TurnError>)

  /** The global graph is only ever assigned the result of `build_graph`, so a graph that exists is entered at `chatbot`. */
  predicate GraphReady(b: Backend)
  {
    b.graph.Some? ==> b.graph.value.entry == Chatbot
  }

  /**
   * `get_bot_response`: build the graph if it is not built yet, then run a turn
   * on thread "1" and return its answer. An existing graph is never rebuilt,
   * and threads other than "1" are untouched.
   */
  function GetBotResponse(o: Oracles, b: Backend, user: string, fuel: nat): (r: Response)
    requires GraphReady(b)
    ensures GraphReady(r.backend)
    ensures b.graph.Some? ==> r.backend.graph == b.graph
    ensures b.graph.None? ==> r.backend.graph == Some(Compiled(ModelName, Chatbot))
    ensures r.reply == StreamGraphUpdates(o, r.backend.graph.value, b.memory, user, fuel).reply
    ensures r.backend.memory == StreamGraphUpdates(o, r.backend.graph.value, b.memory, user, fuel).store
    ensures forall other :: other != DefaultThread ==> Get(r.backend.memory, other) == Get(b.memory, other)
    ensures IsPrefix(Load(b.memory, DefaultThread) + [User(user)], Load(r.backend.memory, DefaultThread))
    ensures r.reply.Success? ==> var h := Load(r.backend.memory, DefaultThread);
                                  && |h| > 0 && Last(h).Assistant? && r.reply.value == Last(h).content
  {
    var graph := if b.graph.None? then BuildGraph(ModelName) else b.graph.value;
    var t := StreamGraphUpdates(o, graph, b.memory, user, fuel);
    Response(Backend(Some(graph), t.store), t.reply)
  }

  /** The back end after a series of `get_bot_response` calls. */
  function Serve(o: Oracles, b: Backend, users: seq<string>, fuel: nat): (r: Backend)
    requires GraphReady(b)
    ensures GraphReady(r)
    decreases |users|
  {
    if |users| == 0 then b
    else Serve(o, GetBotResponse(o, b, users[0], fuel).backend, users[1..], fuel)
  }

  /**
   * The graph is built at most once: whatever graph exists is kept by every
   * later call, and once any call has been served the graph is the one built
   * for the fixed model name.
   */
  lemma {:induction false} GraphBuiltOnce(o: Oracles, b: Backend, users: seq<string>, fuel: nat)
    requires GraphReady(b)
    ensures b.graph.Some? ==> Serve(o, b, users, fuel).graph == b.graph
    ensures |users| > 0 && b.graph.None? ==> Serve(o, b, users, fuel).graph == Some(BuildGraph(ModelName))
    decreases |users|
  {
    if |users| > 0 {
      GraphBuiltOnce(o, GetBotResponse(o, b, users[0], fuel).backend, users[1..], fuel);
    }
  }

  /**
   * Successive turns accumulate in the same history: after two calls, thread
   * "1" holds both users' messages, the first before the second, and both
   * appear as user messages in its transcript.
   */
  lemma TwoTurnsAccumulate(o: Oracles, b: Backend, u1: string, u2: string, fuel: nat)
    requires GraphReady(b)
    ensures var b1 := GetBotResponse(o, b, u1, fuel).backend;
            var b2 := GetBotResponse(o, b1, u2, fuel).backend;
            var h := Load(b2.memory, DefaultThread);
            && (exists i, j :: 0 <= i < j < |h| && h[i] == User(u1) && h[j] == User(u2))
            && Entry(UserMessage, u1) in MessagesListOrEmpty(b2.memory, DefaultThread)
            && Entry(UserMessage, u2) in MessagesListOrEmpty(b2.memory, DefaultThread)
  {
    var b1 := GetBotResponse(o, b, u1, fuel).backend;
    var b2 := GetBotResponse(o, b1, u2, fuel).backend;
    var h0 := Load(b.memory, DefaultThread);
    var h1 := Load(b1.memory, DefaultThread);
    var h := Load(b2.memory, DefaultThread);
    var i, j := |h0|, |h1|;
    assert (h0 + [User(u1)])[i] == User(u1);
    assert h1[i] == User(u1);
    assert (h1 + [User(u2)])[j] == User(u2);
    assert h[i] == (h1 + [User(u2)])[i];
    assert h[j] == User(u2);
    ProjectUserMember(h, u1);
    ProjectUserMember(h, u2);
  }

  /** The transcript of the four messages of a one-search turn: the user's message and the answer. */
  lemma ProjectSearchTurn(user: string, call: ToolCall, result: string, answer: string)
    requires answer != ""
    ensures Project([User(user), Assistant("", [call]), ToolResult(result, call.id), Assistant(answer, [])])
            == [Entry(UserMessage, user), Entry(BotMessage, answer)]
  {
    var t1: History := [User(user)];
    var t2 := t1 + [Assistant("", [call])];
    var t3 := t2 + [ToolResult(result, call.id)];
    var t4 := t3 + [Assistant(answer, [])];
    assert t1[..0] == [];
    assert Project(t1) == [Entry(UserMessage, user)];
    assert t2[..1] == t1;
    assert Project(t2) == Project(t1);
    assert t3[..2] == t2;
    assert Project(t3) == Project(t2);
    assert t4[..3] == t3;
    assert Project(t4) == Project(t3) + [Entry(BotMessage, answer)];
    assert t4 == [User(user), Assistant("", [call]), ToolResult(result, call.id), Assistant(answer, [])];
  }

  /** The run of a one-search turn: chatbot, tools, chatbot, then END. */
  lemma RunSearchTurn(o: Oracles, prompt: Option<string>, h1: History, call: ToolCall, answer: string, fuel: nat)
    requires fuel >= 3
    requires o.llm(prompt, h1) == Reply("", [call])
    requires o.toolsCondition(Assistant("", [call]))
    requires o.llm(prompt, h1 + [Assistant("", [call]), ToolResult(o.tool(call), call.id)]) == Reply(answer, [])
    requires !o.toolsCondition(Assistant(answer, []))
    ensures RunFrom(o, prompt, Chatbot, h1, fuel)
            == Run(h1 + [Assistant("", [call]), ToolResult(o.tool(call), call.id), Assistant(answer, [])],
                   [Chatbot, Tools, Chatbot], true)
  {
    var a, t, a2 := Assistant("", [call]), ToolResult(o.tool(call), call.id), Assistant(answer, []);
    StepShape(h1, a, t, a2);
    ChatbotAnswers(o, prompt, h1 + [a, t], answer, fuel - 2);
    ToolsRuns(o, prompt, h1 + [a], call, fuel - 1);
    assert [Tools] + [Chatbot] == [Tools, Chatbot];
    ChatbotCallsTool(o, prompt, h1, call, fuel);
    assert [Chatbot] + [Tools, Chatbot] == [Chatbot, Tools, Chatbot];
  }

  /** A `chatbot` node whose reply is text alone, which the condition rejects, ends the run. */
  lemma ChatbotAnswers(o: Oracles, prompt: Option<string>, h: History, answer: string, fuel: nat)
    requires fuel >= 1
    requires o.llm(prompt, h) == Reply(answer, [])
    requires !o.toolsCondition(Assistant(answer, []))
    ensures RunFrom(o, prompt, Chatbot, h, fuel) == Run(h + [Assistant(answer, [])], [Chatbot], true)
  {
    assert Step(o, prompt, Chatbot, h) == h + [Assistant(answer, [])];
    RunFromEnd(o, prompt, Chatbot, h, fuel);
  }

  /** A `tools` node after a message requesting one call adds that call's result and returns to `chatbot`. */
  lemma ToolsRuns(o: Oracles, prompt: Option<string>, h: History, call: ToolCall, fuel: nat)
    requires fuel >= 1 && |h| > 0 && Last(h) == Assistant("", [call])
    ensures var rest := RunFrom(o, prompt, Chatbot, h + [ToolResult(o.tool(call), call.id)], fuel - 1);
            RunFrom(o, prompt, Tools, h, fuel) == Run(rest.state, [Tools] + rest.visited, rest.finished)
  {
    assert ToolNode(o, [call]) == [ToolResult(o.tool(call), call.id)];
    assert Step(o, prompt, Tools, h) == h + [ToolResult(o.tool(call), call.id)];
    RunFromNext(o, prompt, Tools, h, fuel);
  }

  /** A `chatbot` node whose reply requests a call, which the condition accepts, goes on to `tools`. */
  lemma ChatbotCallsTool(o: Oracles, prompt: Option<string>, h: History, call: ToolCall, fuel: nat)
    requires fuel >= 1
    requires o.llm(prompt, h) == Reply("", [call])
    requires o.toolsCondition(Assistant("", [call]))
    ensures var rest := RunFrom(o, prompt, Tools, h + [Assistant("", [call])], fuel - 1);
            RunFrom(o, prompt, Chatbot, h, fuel) == Run(rest.state, [Chatbot] + rest.visited, rest.finished)
  {
    assert Step(o, prompt, Chatbot, h) == h + [Assistant("", [call])];
    RunFromNext(o, prompt, Chatbot, h, fuel);
  }

  /**
   * The state after each step of a one-search turn, as one append. Only
   * associativity of `+`; stated apart so that the proofs of the turn lemmas
   * need not rediscover these sequence equalities among their other facts.
   */
  lemma StepShape(h1: History, a: Message, t: Message, a2: Message)
    ensures (h1 + [a]) + [t] == h1 + [a, t]
    ensures (h1 + [a, t]) + [a2] == h1 + [a, t, a2]
  {
  }

  /**
   * Appending the turn's messages after the user's message is appending them
   * all at once. Only associativity of `+`, stated apart for the same reason
   * as `StepShape`.
   */
  lemma SearchTurnShape(h0: History, u: Message, a: Message, t: Message, a2: Message)
    ensures (h0 + [u]) + [a, t] == h0 + [u, a, t]
    ensures (h0 + [u]) + [a, t, a2] == h0 + [u, a, t, a2]
  {
  }

  /**
   * A turn that needs one search: the model first asks for a tool call
   * (empty content), the tool answers, the model then answers in text. The
   * thread gains exactly the four messages in that order, yet its transcript
   * gains only the user's message and the final answer.
   */
  lemma ToolRoundTrip(o: Oracles, g: Compiled, store: Store, tid: string, prompt: Option<string>,
                      user: string, call: ToolCall, answer: string, fuel: nat)
    requires g.entry == Chatbot && fuel >= 3 && answer != ""
    requires o.llm(prompt, Load(store, tid) + [User(user)]) == Reply("", [call])
    requires o.toolsCondition(Assistant("", [call]))
    requires o.llm(prompt, Load(store, tid) + [User(user), Assistant("", [call]), ToolResult(o.tool(call), call.id)])
             == Reply(answer, [])
    requires !o.toolsCondition(Assistant(answer, []))
    ensures var t := HandleTurn(o, g, store, tid, prompt, user, fuel);
            && t.reply == Success(answer)
            && Load(t.store, tid) == Load(store, tid) + [User(user), Assistant("", [call]),
                                                         ToolResult(o.tool(call), call.id), Assistant(answer, [])]
            && MessagesListOrEmpty(t.store, tid)
               == Project(Load(store, tid)) + [Entry(UserMessage, user), Entry(BotMessage, answer)]
  {
    var h0 := Load(store, tid);
    var h1 := h0 + [User(user)];
    var tail: History := [User(user), Assistant("", [call]), ToolResult(o.tool(call), call.id), Assistant(answer, [])];
    SearchTurnShape(h0, User(user), Assistant("", [call]), ToolResult(o.tool(call), call.id), Assistant(answer, []));
    RunSearchTurn(o, prompt, h1, call, answer, fuel);
    var h4 := h1 + [Assistant("", [call]), ToolResult(o.tool(call), call.id), Assistant(answer, [])];
    SaveLoad(store, tid, h4);
    ProjectAppend(h0, tail);
    ProjectSearchTurn(user, call, o.tool(call), answer);
  }
}

=== FILE: messages.dfy ===
/**
 * The conversation state of the chat graph: an ordered log of messages whose
 * only merge rule is "append the node's output after what is already there"
 * (the `add_messages` reducer attached to `State.messages`).
 */
module Messages {
  import opened Sequences

  /** A tool-call request carried by an assistant message; `id` pairs it with its result. */
  datatype ToolCall = ToolCall(id: string, name: string, args: string)

  /**
   * One message of a thread. `User` is a HumanMessage, `Assistant` an AIMessage
   * (its content is empty when it only requests tools), `ToolResult` the
   * ToolMessage answering the call whose id it carries.
   */
  datatype Message =
    | User(content: string)
    | Assistant(content: string, toolCalls: seq<ToolCall>)
    | ToolResult(content: string, callId: string)

  type History = seq<Message>

  /** The last message of a non-empty history (`messages[-1]`). */
  function Last(h: History): Message
    requires |h| > 0
  {
    h[|h| - 1]
  }

  /**
   * The `add_messages` reducer as used here: the incoming messages follow the
   * existing ones in the order given, and the existing ones are kept as they are.
   */
  function AddMessages(existing: History, incoming: History): (r: History)
    ensures |r| == |existing| + |incoming|
    ensures IsPrefix(existing, r)
    ensures forall k :: 0 <= k < |incoming| ==> r[|existing| + k] == incoming[k]
  {
    existing + incoming
  }

  /** Merging in two batches is the same as merging their concatenation at once. */
  lemma AddMessagesInBatches(h: History, a: History, b: History)
    ensures AddMessages(AddMessages(h, a), b) == AddMessages(h, a + b)
  {
    assert (h + a) + b == h + (a + b);
  }

  /** Number of assistant messages in a history. */
  function CountAssistant(h: History): nat
  {
    if |h| == 0 then 0
    else CountAssistant(h[..|h| - 1]) + (if Last(h).Assistant? then 1 else 0)
  }

  /** Counting assistant messages distributes over appending. */
  lemma {:induction false} CountAssistantAppend(a: History, b: History)
    ensures CountAssistant(a + b) == CountAssistant(a) + CountAssistant(b)
    decreases |b|
  {
    if |b| == 0 {
      assert a + b == a;
    } else {
      var b' := b[..|b| - 1];
      assert (a + b)[..|a + b| - 1] == a + b';
      CountAssistantAppend(a, b');
    }
  }
}

=== FILE: projection.dfy ===
/**
 * `get_messages_list`: the display transcript derived from a thread's
 * messages. Human messages are shown as user messages, AI messages with
 * non-empty content as bot messages, and everything else (tool-call-only AI
 * messages, tool results) is left out. Order is kept.
 */
module Projection {
  import opened Wrappers
  import opened Messages
  import opened Checkpoint

  /** The CSS class of a transcript entry. */
  datatype EntryClass = UserMessage | BotMessage {
    function Name(): string {
      match this
      case UserMessage => "user-message"
      case BotMessage => "bot-message"
    }
  }

  /** One `{'class': ..., 'text': ...}` dictionary of the transcript. */
  datatype Entry = Entry(cls: EntryClass, text: string)

  /** The entry one message contributes, if any: the body of the classifying `if`. */
  function Classify(m: Message): (r: Option<Entry>)
    ensures r.Some? <==> m.User? || (m.Assistant? && m.content != "")
    ensures r.Some? ==> r.value.text == m.content
    ensures r.Some? ==> (r.value.cls == UserMessage <==> m.User?)
    ensures r.Some? ==> (r.value.cls.Name() == "user-message" <==> m.User?)
    ensures r.Some? ==> (r.value.cls.Name() == "bot-message" <==> m.Assistant?)
  {
    match m
    case User(c) => Some(Entry(UserMessage, c))
    case Assistant(c, _) => if c != "" then Some(Entry(BotMessage, c)) else None
    case ToolResult(_, _) => None
  }

  function Emit(e: Option<Entry>): seq<Entry>
  {
    match e
    case Some(x) => [x]
    case None => []
  }

  /** The transcript of a history, built front to back as the loop of the source does. */
  function Project(h: History): (r: seq<Entry>)
    ensures |r| <= |h|
  {
    if |h| == 0 then []
    else Project(h[..|h| - 1]) + Emit(Classify(Last(h)))
  }

  /** The transcript of a concatenation is the concatenation of the transcripts. */
  lemma {:induction false} ProjectAppend(a: History, b: History)
    ensures Project(a + b) == Project(a) + Project(b)
    decreases |b|
  {
    if |b| == 0 {
      assert a + b == a;
    } else {
      var b' := b[..|b| - 1];
      assert (a + b)[..|a + b| - 1] == a + b';
      ProjectAppend(a, b');
    }
  }

  /**
   * A user message is in the transcript exactly when a human message with
   * that text is in the history.
   */
  lemma {:induction false} ProjectUserMember(h: History, t: string)
    ensures Entry(UserMessage, t) in Project(h) <==> User(t) in h
    decreases |h|
  {
    if |h| > 0 {
      var h' := h[..|h| - 1];
      assert h == h' + [Last(h)];
      ProjectUserMember(h', t);
    }
  }

  /**
   * A bot message is in the transcript exactly when its text is non-empty and
   * some AI message of the history carries that text; tool results and
   * tool-call-only AI messages never appear.
   */
  lemma {:induction false} ProjectBotMember(h: History, t: string)
    ensures Entry(BotMessage, t) in Project(h)
            <==> t != "" && exists i :: 0 <= i < |h| && h[i].Assistant? && h[i].content == t
    decreases |h|
  {
    if |h| > 0 {
      var h' := h[..|h| - 1];
      ProjectBotMember(h', t);
      if Entry(BotMessage, t) in Project(h') {
        var i :| 0 <= i < |h'| && h'[i].Assistant? && h'[i].content == t;
        assert h[i] == h'[i];
      }
      if t != "" && (exists i :: 0 <= i < |h| && h[i].Assistant? && h[i].content == t) {
        var i :| 0 <= i < |h| && h[i].Assistant? && h[i].content == t;
        if i < |h'| {
          assert h'[i] == h[i];
        }
      }
    }
  }

  /** Messages that are neither human nor AI (tool results) leave the transcript unchanged. */
  lemma ToolResultsNotProjected(h: History, results: History)
    requires forall k :: 0 <= k < |results| ==> results[k].ToolResult?
    ensures Project(h + results) == Project(h)
  {
    ProjectAppend(h, results);
    NoEntries(results);
  }

  lemma {:induction false} NoEntries(results: History)
    requires forall k :: 0 <= k < |results| ==> results[k].ToolResult?
    ensures Project(results) == []
    decreases |results|
  {
    if |results| > 0 {
      NoEntries(results[..|results| - 1]);
    }
  }

  /**
   * `src` lists, for each entry of `r`, the position in `h[..i]` of the message
   * it came from: positions increase, each entry is what its message classifies
   * to, and every position not listed classifies to nothing.
   */
  ghost predicate Sources(h: History, i: nat, r: seq<Entry>, src: seq<nat>)
    requires i <= |h|
  {
    && |src| == |r|
    && (forall k :: 0 <= k < |src| ==> src[k] < i && Classify(h[src[k]]) == Some(r[k]))
    && (forall k, l :: 0 <= k < l < |src| ==> src[k] < src[l])
    && (forall j :: 0 <= j < i && j !in src ==> Classify(h[j]).None?)
  }

  lemma SourcesStep(h: History, i: nat, r: seq<Entry>, src: seq<nat>)
    requires i < |h| && Sources(h, i, r, src)
    ensures Sources(h, i + 1, r + Emit(Classify(h[i])), src + (if Classify(h[i]).Some? then [i] else []))
  {
    if Classify(h[i]).Some? {
      var r', src' := r + [Classify(h[i]).value], src + [i];
      forall j | 0 <= j < i + 1 && j !in src'
        ensures Classify(h[j]).None?
      {
        assert j !in src;
      }
    } else {
      assert r + Emit(Classify(h[i])) == r && src + [] == src;
      forall j | 0 <= j < i + 1 && j !in src
        ensures Classify(h[j]).None?
      {
      }
    }
  }

  /** Extending the prefix read so far by one message extends its transcript by that message's entry. */
  lemma ProjectSnoc(h: History, i: nat)
    requires i < |h|
    ensures Project(h[..i + 1]) == Project(h[..i]) + Emit(Classify(h[i]))
  {
    assert h[..i + 1][..i] == h[..i];
  }

  /** The positions in `h` of the messages that enter the transcript, in order. */
  function Positions(h: History): (p: seq<nat>)
    ensures |p| == |Project(h)|
    decreases |h|
  {
    if |h| == 0 then []
    else Positions(h[..|h| - 1]) + (if Classify(Last(h)).Some? then [|h| - 1] else [])
  }

  /** Extending the prefix read so far by one message adds its position if it enters the transcript. */
  lemma PositionsSnoc(h: History, i: nat)
    requires i < |h|
    ensures Positions(h[..i + 1]) == Positions(h[..i]) + (if Classify(h[i]).Some? then [i] else [])
  {
    assert h[..i + 1][..i] == h[..i];
  }

  /** Reading one more message keeps the sources of the prefix read so far. */
  lemma SourcesSnoc(h: History, i: nat)
    requires i < |h| && Sources(h, i, Project(h[..i]), Positions(h[..i]))
    ensures Sources(h, i + 1, Project(h[..i + 1]), Positions(h[..i + 1]))
  {
    ProjectSnoc(h, i);
    PositionsSnoc(h, i);
    SourcesStep(h, i, Project(h[..i]), Positions(h[..i]));
  }

  lemma {:induction false} SourcesUpTo(h: History, i: nat)
    requires i <= |h|
    ensures Sources(h, i, Project(h[..i]), Positions(h[..i]))
    decreases i
  {
    if i == 0 {
      assert h[..0] == [];
    } else {
      SourcesUpTo(h, i - 1);
      SourcesSnoc(h, i - 1);
    }
  }

  /**
   * `Positions` maps each transcript entry to the message it came from:
   * positions increase (input order is kept), each entry is exactly what its
   * message classifies to, and every message not listed was dropped.
   */
  lemma PositionsAreSources(h: History)
    ensures Sources(h, |h|, Project(h), Positions(h))
  {
    SourcesUpTo(h, |h|);
    assert h[..|h|] == h;
  }
}

=== FILE: pystring.dfy ===
/** Python's `str.strip()` with no arguments: remove leading and trailing whitespace. */
module PyString {

  /** Python's `str.isspace` on one character: the Unicode whitespace set, including U+3000. */
  predicate IsSpace(c: char)
  {
    || ('\t' <= c <= '\r')
    || ('\U{1C}' <= c <= '\U{1F}')
    || c == ' ' || c == '\U{85}' || c == '\U{A0}' || c == '\U{1680}'
    || ('\U{2000}' <= c <= '\U{200A}')
    || c == '\U{2028}' || c == '\U{2029}' || c == '\U{202F}' || c == '\U{205F}' || c == '\U{3000}'
  }

  predicate AllSpace(s: string)
  {
    forall i :: 0 <= i < |s| ==> IsSpace(s[i])
  }

  /** Every character of `s` at a position in `[lo, hi)` is whitespace. */
  predicate SpaceBetween(s: string, lo: int, hi: int)
    requires 0 <= lo <= hi <= |s|
  {
    forall j :: lo <= j < hi ==> IsSpace(s[j])
  }

  /** The scan from the left: the first position at or after `i` that holds no whitespace, or `|s|`. */
  function SkipLeading(s: string, i: nat): (k: nat)
    requires i <= |s|
    ensures i <= k <= |s|
    ensures SpaceBetween(s, i, k)
    ensures k < |s| ==> !IsSpace(s[k])
    decreases |s| - i
  {
    if i < |s| && IsSpace(s[i]) then SkipLeading(s, i + 1) else i
  }

  /** The scan from the right, not below `lo`: the end of `s[lo..j]` once its trailing whitespace is dropped. */
  function SkipTrailing(s: string, lo: nat, j: nat): (k: nat)
    requires lo <= j <= |s|
    ensures lo <= k <= j
    ensures SpaceBetween(s, k, j)
    ensures k > lo ==> !IsSpace(s[k - 1])
    decreases j
  {
    if j > lo && IsSpace(s[j - 1]) then SkipTrailing(s, lo, j - 1) else j
  }

  /**
   * `s.strip()`: the result is a contiguous piece of `s`, everything around
   * it is whitespace, and it neither starts nor ends with whitespace.
   */
  function Strip(s: string): (r: string)
    ensures exists i :: 0 <= i <= |s| - |r| && r == s[i..i + |r|] && SpaceBetween(s, 0, i) && SpaceBetween(s, i + |r|, |s|)
    ensures |r| > 0 ==> !IsSpace(r[0]) && !IsSpace(r[|r| - 1])
  {
    var a := SkipLeading(s, 0);
    var b := SkipTrailing(s, a, |s|);
    assert s[a..b] == s[a..a + |s[a..b]|];
    s[a..b]
  }

  /** Stripping twice is stripping once. */
  lemma StripIdempotent(s: string)
    ensures Strip(Strip(s)) == Strip(s)
  {
    var r := Strip(s);
    assert SkipLeading(r, 0) == 0;
    assert SkipTrailing(r, 0, |r|) == |r|;
    assert r[0..|r|] == r;
  }

  /** A string strips to nothing exactly when it is all whitespace. */
  lemma StripEmptyIff(s: string)
    ensures Strip(s) == "" <==> AllSpace(s)
  {
    var a := SkipLeading(s, 0);
    var b := SkipTrailing(s, a, |s|);
    assert Strip(s) == s[a..b];
    if a == b {
      assert SpaceBetween(s, b, |s|);
      assert a == |s|;
      forall k | 0 <= k < |s|
        ensures IsSpace(s[k])
      {
        assert SpaceBetween(s, 0, a);
      }
    }
  }

  /** A string that is non-empty and has no whitespace at either end strips to itself. */
  lemma StripTrimmed(v: string)
    requires v != "" && !IsSpace(v[0]) && !IsSpace(v[|v| - 1])
    ensures Strip(v) == v
  {
    assert SkipLeading(v, 0) == 0;
    assert SkipTrailing(v, 0, |v|) == |v|;
    assert v[0..|v|] == v;
  }
}

=== FILE: sequences.dfy ===
/** Facts about sequences used by the append-only logs of the model. */
module Sequences {

  /** `a` is an initial segment of `b`: nothing in `a` was removed or changed in `b`. */
  predicate IsPrefix<T(==)>(a: seq<T>, b: seq<T>)
  {
    |a| <= |b| && b[..|a|] == a
  }

  lemma PrefixTransitive<T>(a: seq<T>, b: seq<T>, c: seq<T>)
    requires IsPrefix(a, b) && IsPrefix(b, c)
    ensures IsPrefix(a, c)
  {
    assert c[..|a|] == c[..|b|][..|a|];
  }
}

=== FILE: transcript.dfy ===
/**
 * `get_messages_list`: the transcript of one thread as the page shows it,
 * read from the thread's checkpoint in the memory store.
 */
module Transcript {
  import opened Wrappers
  import opened Messages
  import opened Checkpoint
  import opened Projection

  /**
   * The source's loop over the thread's messages. Alongside the transcript it
   * returns the positions of the messages the entries came from, in input
   * order; every message left out classifies to nothing.
   */
  method MessagesList(h: History) returns (r: seq<Entry>, src: seq<nat>)
    ensures r == Project(h)
    ensures src == Positions(h)
    ensures Sources(h, |h|, r, src)
  {
    r, src := [], [];
    var i := 0;
    assert h[..0] == [];
    while i < |h|
      invariant 0 <= i <= |h|
      invariant r == Project(h[..i])
      invariant src == Positions(h[..i])
    {
      ProjectSnoc(h, i);
      PositionsSnoc(h, i);
      var e := Classify(h[i]);
      r, src := r + Emit(e), src + (if e.Some? then [i] else []);
      i := i + 1;
    }
    assert h[..i] == h;
    PositionsAreSources(h);
  }

  /**
   * `get_messages_list` as written: it indexes the checkpoint returned by
   * `memory.get`, which is absent for a thread with no checkpoint, so the
   * call fails (`None`) instead of returning an empty list.
   */
  function MessagesListAsWritten(store: Store, tid: string): (r: Option<seq<Entry>>)
    ensures r.None? <==> tid !in store
    ensures r.Some? ==> r.value == Project(store[tid])
  {
    match Get(store, tid)
    case Some(h) => Some(Project(h))
    case None => None
  }

  /** The failing input: right after a store-wide clear the as-written read fails. */
  lemma AsWrittenFailsAfterClear(store: Store, tid: string)
    ensures MessagesListAsWritten(ClearAll(store), tid) == None
  {
    assert Get(ClearAll(store), tid) == None;
  }

  /**
   * `get_messages_list` as intended ("always return a list, even when there are
   * no messages"): a thread with no checkpoint reads as an empty transcript.
   */
  function MessagesListOrEmpty(store: Store, tid: string): (r: seq<Entry>)
    ensures tid !in store ==> r == []
    ensures MessagesListAsWritten(store, tid) == Some(r) || (tid !in store && r == [])
  {
    Project(Load(store, tid))
  }
}

=== FILE: webapp.dfy ===
/**
 * The multi-user web front end of the persona chat: per-session thread ids
 * and persona ("character") settings, the chat page (GET shows an empty page,
 * POST runs a turn), the persona form, and the clear-history action. Each of
 * GET, the persona update and clear empties the whole memory store.
 */
module WebApp {
  import opened Wrappers
  import opened Sequences
  import opened Messages
  import opened Checkpoint
  import opened Projection
  import opened Transcript
  import opened Graph
  import opened PyString

  const DefaultName: string := "ChatBot"
  const DefaultDescription: string := "汎用的なチャットボット"
  /** The default system prompt, written in its two sentences. */
  const DefaultSystemPrompt: string := PromptGreeting + PromptInstruction
  const PromptGreeting: string := "あなたは親切で丁寧なアシスタントです。"
  const PromptInstruction: string := "ユーザーの質問に対して正確で分かりやすい回答を提供してください。"

  /** The persona stored in the session. */
  datatype Character = Character(name: string, description: string, systemPrompt: string)

  const DefaultCharacter: Character := Character(DefaultName, DefaultDescription, DefaultSystemPrompt)

  /** The session cookie's contents; either key may be missing. */
  datatype Session = Session(threadId: Option<string>, character: Option<Character>)

  /** What the template is rendered with. */
  datatype Page = Page(messages: seq<Entry>, character: Character)

  /** The HTTP answer: the rendered page, or a server error when the turn raised. */
  datatype View = Rendered(page: Page) | ServerError(error: TurnError)

  /** The effect of one request: the new session, the new memory store, and the answer. */
  datatype Exchange = Exchange(session: Session, memory: Store, view: View)

  /** A request to `/`: GET, or POST with the `user_message` form field. */
  datatype Request = HttpGet | HttpPost(userMessage: string)

  /**
   * The first lines of `index`: a session without a thread id gets the fresh
   * one, and a session without a character gets the default persona; present
   * values are kept.
   */
  function InitSession(s: Session, freshId: string): (r: Session)
    ensures r.threadId.Some? && r.character.Some?
    ensures s.threadId.Some? ==> r.threadId == s.threadId
    ensures s.threadId.None? ==> r.threadId == Some(freshId)
    ensures s.character.Some? ==> r.character == s.character
    ensures s.character.None? ==> r.character == Some(DefaultCharacter)
  {
    var tid := if s.threadId.None? then Some(freshId) else s.threadId;
    var character := if s.character.None? then Some(DefaultCharacter) else s.character;
    Session(tid, character)
  }

  /** Once initialised, a session keeps its thread id and persona whatever fresh id the next request draws. */
  lemma InitSessionStable(s: Session, first: string, later: string)
    ensures InitSession(InitSession(s, first), later) == InitSession(s, first)
  {
  }

  /**
   * The turn a POST runs: on the session's thread, with the persona's system
   * prompt. Only that thread changes; it gains the user's message; a
   * successful answer is the content of its last message, an AI message the
   * condition rejects; a failure comes only once the fuel is spent with every
   * AI message added asking for the tools.
   */
  function PostTurn(o: Oracles, s: Session, memory: Store, user: string, fuel: nat): (t: Turn)
    requires s.threadId.Some? && s.character.Some?
    ensures forall other :: other != s.threadId.value ==> Get(t.store, other) == Get(memory, other)
    ensures IsPrefix(Load(memory, s.threadId.value) + [User(user)], Load(t.store, s.threadId.value))
    ensures t.reply.Failure? ==> t.steps == fuel
    ensures t.reply.Success? ==> var h := Load(t.store, s.threadId.value);
                                  && |h| > 0 && Last(h).Assistant? && t.reply.value == Last(h).content
                                  && !o.toolsCondition(Last(h))
    ensures t.reply.Failure? ==> var h := Load(t.store, s.threadId.value);
                                  forall k :: |Load(memory, s.threadId.value)| < k < |h| ==>
                                                (h[k].Assistant? ==> o.toolsCondition(h[k]))
  {
    HandleTurn(o, BuildGraph(ModelName), memory, s.threadId.value, Some(s.character.value.systemPrompt), user, fuel)
  }

  /**
   * The persona's system prompt is what the chat model is asked with: when
   * its reply to that prompt needs no tool, the POST answers with that reply.
   */
  lemma PostTurnUsesPersona(o: Oracles, s: Session, memory: Store, user: string, fuel: nat)
    requires s.threadId.Some? && s.character.Some? && fuel >= 1
    requires !o.toolsCondition(ChatbotNode(o, Some(s.character.value.systemPrompt),
                                           Load(memory, s.threadId.value) + [User(user)]))
    ensures PostTurn(o, s, memory, user, fuel).reply
            == Success(ChatbotNode(o, Some(s.character.value.systemPrompt),
                                   Load(memory, s.threadId.value) + [User(user)]).content)
  {
    TurnAnswersDirectly(o, BuildGraph(ModelName), memory, s.threadId.value, Some(s.character.value.systemPrompt), user, fuel);
  }

  /**
   * `index`. GET empties the whole memory store and shows an empty page.
   * POST runs a turn on the session's thread with the persona's system
   * prompt, then shows that thread's transcript; other threads are untouched.
   * A POST whose turn fails answers with a server error instead.
   */
  function Index(o: Oracles, s: Session, memory: Store, req: Request, freshId: string, fuel: nat): (x: Exchange)
    ensures x.session == InitSession(s, freshId)
    ensures req.HttpGet? ==> (forall t :: Get(x.memory, t) == None)
    ensures req.HttpGet? ==> x.view == Rendered(Page([], x.session.character.value))
    ensures req.HttpPost? ==> x.memory == PostTurn(o, x.session, memory, req.userMessage, fuel).store
    ensures req.HttpPost? ==> forall other :: other != x.session.threadId.value ==> Get(x.memory, other) == Get(memory, other)
    ensures req.HttpPost? ==> IsPrefix(Load(memory, x.session.threadId.value) + [User(req.userMessage)],
                                       Load(x.memory, x.session.threadId.value))
    ensures req.HttpPost? && x.view.Rendered? ==>
              x.view.page == Page(Project(Load(x.memory, x.session.threadId.value)), x.session.character.value)
    ensures req.HttpPost? ==> (x.view.Rendered? <==> PostTurn(o, x.session, memory, req.userMessage, fuel).reply.Success?)
    ensures req.HttpPost? && x.view.ServerError? ==>
              x.view.error == PostTurn(o, x.session, memory, req.userMessage, fuel).reply.error
  {
    var s' := InitSession(s, freshId);
    match req
    case HttpGet => Exchange(s', ClearAll(memory), Rendered(Page([], s'.character.value)))
    case HttpPost(userMessage) => Respond(s', PostTurn(o, s', memory, userMessage, fuel))
  }

  /**
   * How the POST branch of `index` answers once its turn `t` has run: the
   * memory the turn left, and the thread's transcript when the turn answered
   * or the turn's error when it failed.
   */
  function Respond(s: Session, t: Turn): (x: Exchange)
    requires s.threadId.Some? && s.character.Some?
    ensures x.session == s && x.memory == t.store
    ensures x.view.Rendered? <==> t.reply.Success?
    ensures x.view.Rendered? ==> x.view.page == Page(Project(Load(t.store, s.threadId.value)), s.character.value)
    ensures x.view.ServerError? ==> x.view.error == t.reply.error
  {
    match t.reply
    case Failure(e) => Exchange(s, t.store, ServerError(e))
    case Success(_) => Exchange(s, t.store, Rendered(Page(MessagesListOrEmpty(t.store, s.threadId.value), s.character.value)))
  }

  /** After a POST turn the thread always has a checkpoint, so the transcript read never hits the missing-thread failure. */
  lemma PostReadsExistingThread(o: Oracles, s: Session, memory: Store, user: string, freshId: string, fuel: nat)
    ensures var x := Index(o, s, memory, HttpPost(user), freshId, fuel);
            MessagesListAsWritten(x.memory, x.session.threadId.value).Some?
  {
    var s' := InitSession(s, freshId);
    var tid := s'.threadId.value;
    var t := HandleTurn(o, BuildGraph(ModelName), memory, tid, Some(s'.character.value.systemPrompt), user, fuel);
    assert tid in t.store;
  }

  /** `v` is what a persona field stores for the submitted text: the text stripped, or the default when that leaves nothing. */
  predicate StoredField(submitted: Option<string>, default: string, v: string)
  {
    var stripped := Strip(submitted.GetOr(""));
    if stripped != "" then v == stripped else v == default
  }

  /** A field stored from a form is never empty and never starts or ends with whitespace. */
  predicate Trimmed(v: string)
  {
    v != "" && !IsSpace(v[0]) && !IsSpace(v[|v| - 1])
  }

  /**
   * One persona field: the submitted text stripped of surrounding whitespace,
   * or the fixed default when nothing is left (or the field was not sent).
   */
  function Field(submitted: Option<string>, default: string): (r: string)
    requires Trimmed(default)
    ensures StoredField(submitted, default, r)
    ensures Trimmed(r)
  {
    var v := Strip(submitted.GetOr(""));
    if v == "" then default else v
  }

  /** The three defaults are themselves stored-field values: non-empty, nothing to strip. */
  lemma DefaultsTrimmed()
    ensures Trimmed(DefaultName) && Trimmed(DefaultDescription) && Trimmed(DefaultSystemPrompt)
  {
    assert Trimmed(DefaultName);
    assert Trimmed(DefaultDescription);
    SystemPromptTrimmed();
  }

  lemma SystemPromptTrimmed()
    ensures Trimmed(DefaultSystemPrompt)
  {
    assert PromptGreeting[0] == 'あ';
    assert PromptInstruction[|PromptInstruction| - 1] == '。';
  }

  /** A submitted field that is only whitespace, or missing, gets the default. */
  lemma FieldBlankIsDefault(submitted: Option<string>, default: string)
    requires Trimmed(default)
    requires submitted.None? || AllSpace(submitted.value)
    ensures Field(submitted, default) == default
  {
    StripEmptyIff(submitted.GetOr(""));
  }

  /** A submitted field that is already stripped and non-empty is stored as it is. */
  lemma FieldKeepsStrippedText(v: string, default: string)
    requires Trimmed(default) && Trimmed(v)
    ensures Field(Some(v), default) == v
  {
    StripTrimmed(v);
  }

  /**
   * `update_character`: store the persona built field by field, keep the
   * thread id, empty the whole memory store, and show an empty page with the
   * new persona. No stored field is empty.
   */
  function UpdateCharacter(s: Session, memory: Store, name: Option<string>, description: Option<string>,
                           systemPrompt: Option<string>): (x: Exchange)
    ensures x.session.threadId == s.threadId
    ensures x.session.character.Some?
    ensures var c := x.session.character.value;
            && StoredField(name, DefaultName, c.name)
            && StoredField(description, DefaultDescription, c.description)
            && StoredField(systemPrompt, DefaultSystemPrompt, c.systemPrompt)
            && Trimmed(c.name) && Trimmed(c.description) && Trimmed(c.systemPrompt)
            && x.view == Rendered(Page([], c))
    ensures forall t :: Get(x.memory, t) == None
  {
    DefaultsTrimmed();
    var c := Character(Field(name, DefaultName), Field(description, DefaultDescription),
                       Field(systemPrompt, DefaultSystemPrompt));
    Exchange(Session(s.threadId, Some(c)), ClearAll(memory), Rendered(Page([], c)))
  }

  /**
   * `clear`: drop the thread id (a session without one is fine), empty the
   * whole memory store, keep the persona, and show an empty page with the
   * persona or, if there is none, the default.
   */
  function Clear(s: Session, memory: Store): (x: Exchange)
    ensures x.session.threadId.None?
    ensures x.session.character == s.character
    ensures forall t :: Get(x.memory, t) == None
    ensures x.view == Rendered(Page([], s.character.GetOr(DefaultCharacter)))
  {
    Exchange(s.(threadId := None), ClearAll(memory), Rendered(Page([], s.character.GetOr(DefaultCharacter))))
  }

  /** After `clear`, the next request to `/` starts a new thread under the fresh id and keeps the persona. */
  lemma ClearStartsNewThread(o: Oracles, s: Session, memory: Store, req: Request, freshId: string, fuel: nat)
    ensures var c := Clear(s, memory);
            var x := Index(o, c.session, c.memory, req, freshId, fuel);
            x.session.threadId == Some(freshId) && x.session.character == InitSession(s, freshId).character
  {
  }

  /**
   * The clears are store-wide: one session's GET discards the history of
   * another session's thread, even though the two thread ids differ.
   */
  lemma GetDiscardsOtherSessions(o: Oracles, a: Session, b: Session, memory: Store,
                                 user: string, freshA: string, freshB: string, fuel: nat)
    ensures var xb := Index(o, b, memory, HttpPost(user), freshB, fuel);
            var xa := Index(o, a, xb.memory, HttpGet, freshA, fuel);
            var tidB := xb.session.threadId.value;
            && |Load(xb.memory, tidB)| > 0
            && Load(xa.memory, tidB) == []
  {
    var xb := Index(o, b, memory, HttpPost(user), freshB, fuel);
    var tidB := xb.session.threadId.value;
    assert |Load(memory, tidB) + [User(user)]| > 0;
    var xa := Index(o, a, xb.memory, HttpGet, freshA, fuel);
    assert Get(xa.memory, tidB) == None;
  }
}

=== FILE: wrappers.dfy ===
/** The optional-value and success-or-error types shared by the other modules. */
module Wrappers {

  /** A value that may be absent: a missing key, an unset global, a form field not sent. */
  datatype Option<+T> = None | Some(value: T) {

    /** The wrapped value, or `default` when absent (Python's `d.get(k, default)`). */
    function GetOr(default: T): T {
      match this
      case Some(v) => v
      case None => default
    }
  }

  /** The outcome of an operation that either returns a value or raises an error. */
  datatype Result<+R, +E> = Success(value: R) | Failure(error: E)
}
